=== FILE: README.md ===
# Sewing-school page script: the decision rules, in Dafny

`main.js` is the only script of a sewing school's marketing site. Most of it
wires DOM events to class toggles. Inside that wiring sit a few small decision
rules, and this project models and proves them:

- **field validation** (`validateField`): the value is trimmed, then a required
  check, an email check and a phone check run in that order;
- **form validation** (`validateForm`): every required `.form-input` /
  `.form-select` control is validated, without stopping at the first failure;
- **the schedule filter** (`filterSchedule`): three facet selects (level,
  format, day) decide which table rows stay visible;
- **the accordion click**: clicking a header closes the accordion's group and
  opens the clicked accordion if it was closed;
- **the submit flow**: the validation guard, the loading button, and the two
  ways the request settles. The request's outcome is an input.

Modules, one per concern:

| file | module | what it holds |
|---|---|---|
| optional.dfy | `Optional` | `Option`, for DOM lookups that may return `null` |
| text.dfy | `Text` | JavaScript whitespace, `trim()`, `\d`, `replace(/\D/g, '')` |
| patterns.dfy | `Patterns` | the email regular expression and the phone pattern |
| validation.dfy | `Validation` | `Field`, `validateField`, `validateForm` |
| schedule.dfy | `Schedule` | facet selections, rows, the row filter |
| accordion.dfy | `Accordion` | page layout of accordions and groups, the click |
| submission.dfy | `Submission` | submit button, outcome, effects, the submit handler |

Character classes are exact for the regular expressions as written. `\d`
without the `u` flag is ASCII `0`-`9`. `\s` and `trim()` share ECMAScript's
whitespace set: the WhiteSpace characters plus the LineTerminators, with the
space separators listed one by one. The email regular expression is
modelled twice. `EmailLanguage` reads it directly off the expression as
"run, `@`, run, `.`, run". `EmailShape` is the structural description:
no whitespace, exactly one `@`, a non-empty part before it, and a dot after it
with a character on each side. A lemma proves the two agree on every string.

Three behaviours of `main.js` are easy to misread, and the model keeps them as
written:

- Each failing check of `validateField` overwrites `errorMessage`
  (main.js:111-133), so the last failing check wins. Required cannot fail
  together with the other two, but the email and phone checks can: an
  email-typed field named `phone` reports the phone message.
- After the request settles, the button's label becomes
  `data-original-text || 'Отправить'`. The label captured in `originalText`
  (main.js:156) is never used.
- After a delivered request, `form.reset()` (main.js:174) gives each control
  its default value back. It does not clear the controls.

## Model

| member | source | states |
|---|---|---|
| `Text.Trim` | main.js:99 | the trimmed value has no whitespace at either end, and it is empty exactly when the raw value is all whitespace |
| `Text.TrimIsInfix` | main.js:99 | the trimmed value is a slice of the raw value with only whitespace outside it |
| `Text.TrimPadded` | main.js:99 | any whitespace around a value with non-space ends is removed and nothing else is: `trim(a + t + b) == t` |
| `Text.Reassemble` | main.js:99 | a value whose trimmed part is `t` still trims to `t` once more whitespace is put around it |
| `Text.TrimAround` | main.js:99 | whitespace put around any value, blank or not, never changes what `trim()` returns |
| `Text.TrimIdempotent` | main.js:99 | trimming an already trimmed value changes nothing |
| `Text.Digits` | main.js:129 | `replace(/\D/g, '')` keeps only digits, keeps every digit with its multiplicity, and is no longer than its input |
| `Patterns.EmailShapeMatchesPattern` | main.js:118-123 | the email regular expression accepts a string exactly when it has no whitespace, exactly one `@`, a non-empty part before it and a dot after it with a character on each side |
| `Patterns.EmailExamples` | main.js:119-120 | `a@b.co` matches; `a@b` and `a@@b.co` do not |
| `Patterns.PhoneIgnoresSeparators` | main.js:127-132 | inserting a space, `-`, `+`, `(` or `)` anywhere never changes whether the phone check passes |
| `Patterns.BareDigitsPass` | main.js:128-129 | ten or more digits with nothing else pass the phone check |
| `Patterns.PhoneOkIsLong` | main.js:128-129 | a value that passes the phone check has at least ten characters |
| `Patterns.PhoneExamples` | main.js:128-129 | `555-12` (too few digits) and `call me` (letters) fail the phone check |
| `Validation.ValidateField` | main.js:98-145 | valid exactly when no check fails; Required exactly when the field is required and blank; BadPhone exactly when the phone check fails; BadEmail exactly when the email check fails and the phone check does not (last failure wins) |
| `Validation.BlankField` | main.js:112-127 | a blank or whitespace-only value is invalid with Required when the field is required and valid otherwise; neither shape check runs |
| `Validation.SameTrimSameVerdict` | main.js:99-100 | two controls that differ only in the whitespace around their values get the same verdict |
| `Validation.PaddingIgnored` | main.js:99 | typing whitespace around any entry, blank or already padded, never changes its verdict |
| `Validation.LastFailureWins` | main.js:117-133 | an email-typed control named `phone` holding `x` fails both shape checks and reports the phone message |
| `Validation.CheckEach` | main.js:86-95 | visits every element; each selected one gets its own verdict and the others none; the result is true exactly when every selected verdict is good, with no early exit |
| `Validation.ValidateForm` | main.js:85-96 | every required control is validated and ends up flagged with its own verdict, and the others are not visited; the result is true exactly when no control that `validateForm` visits is invalid |
| `Validation.FormValidIffNoVisitedControlInvalid` | main.js:85-96 | no control that `validateForm` visits is invalid exactly when every required control passes `validateField`, so that is what the form validator returns |
| `Validation.OptionalFieldsIgnored` | main.js:87 | the value of a control that is not selected as required never changes whether the form validates |
| `Schedule.IsShown` | main.js:238-251 | a row is shown exactly when, for each of level, format and day, the effective selection is `all` or equals the row's tag |
| `Schedule.Filter` | main.js:242-258 | every row of the table gets that visibility, in order |
| `Schedule.NoSelectionShowsAll` | main.js:238-240 | with no select present or every select empty, every row is shown |
| `Schedule.UnsetMeansAll` | main.js:238-240 | on each of the level, format and day facets, a missing select, an empty one and one set to `all` filter alike, whatever the other two hold |
| `Schedule.FullSelectionMatchesExactly` | main.js:249-251 | with a concrete value on every facet, exactly the rows carrying those three tags are shown |
| `Schedule.NarrowingOnlyHides` | main.js:249-251 | choosing a value on one more facet can hide rows but never reveals one |
| `Accordion.ClickAsWritten` | main.js:42-57 | as written: a closed accordion opens; an open one closes only if its own group reset closes it; the rest of its group closes; everything else is unchanged |
| `Accordion.UngroupedOpenStaysOpen` | main.js:46-56 | as written, clicking an open accordion that has no group changes nothing |
| `Accordion.Click` | main.js:42-57 | corrected: the clicked accordion is active exactly when it was not; the rest of its group is inactive; everything outside the group is unchanged |
| `Accordion.ClickMatchesSourceInGroups` | main.js:46-56 | for an accordion inside its group the correction and the code agree |
| `Accordion.UngroupedToggles` | main.js:53-56 | outside any group the corrected click toggles the clicked accordion and nothing else |
| `Accordion.ClickLeavesOneActive` | main.js:45-56 | after a click inside a group, at most one accordion of that group is active |
| `Accordion.ClickPreservesExclusivity` | main.js:45-56 | on a page without nested groups, "at most one active per group" holds after every click if it held before |
| `Accordion.ClickAsWrittenLeavesOneActive` | main.js:45-56 | after a click inside a group, the handler as written leaves at most one accordion of that group active |
| `Accordion.ClickAsWrittenPreservesExclusivity` | main.js:45-56 | on a page without nested groups, the handler as written keeps "at most one active per group" across every click |
| `Accordion.NestedGroupsAllowTwo` | main.js:46-56 | with one group nested in another, a click in the inner group can leave two accordions of the outer group active, under the handler as written and under the corrected click |
| `Submission.Reset` | main.js:174 | reset gives every control its default value and changes nothing else about it |
| `Submission.Submit` | main.js:147-193 | when the form fails validation, nothing is sent, no success or failure feedback appears and nobody is notified; otherwise the button ends enabled, not loading and labelled `data-original-text` or `Отправить`, and keeps its `data-original-text`; on delivery the controls are reset as `Submission.Reset` states and success feedback is followed by the two notifications; on failure the values stay and only the error alert is added |
| `Submission.Pending` | main.js:153-158 | while the request is pending the button is disabled, loading and reads `Отправка...`; nothing else about the button, including its `data-original-text`, and nothing else about the form changes |
| `Submission.ButtonSettlesAlike` | main.js:186-192 | the button ends the same whether the request was delivered or failed |
| `Submission.FailureNotifiesNobody` | main.js:182-185 | a failed request keeps the entered values and sends no notification |
| `Submission.NotificationsCarryEnteredValues` | main.js:169-181 | both notifications carry the values captured before the reset |
| `Submission.OriginalLabelNotRestored` | main.js:156-191 | a button reading `Записаться` without `data-original-text` reads `Отправить` after submission |
| `Submission.ResetFormNeedsNewInput` | main.js:174 | after a delivered submission, a required control whose default value is blank fails validation again |
| `Submission.PendingFormCanBeResent` | main.js:67-73 | the handler does not check the button; only the browser's handling of a disabled submit button stands between a pending form and a second request |

## Findings

| source | as written | input that shows it | evidently intended | confidence | as-written member | corrected member |
|---|---|---|---|---|---|---|
| main.js:53-56 | under the comment "Toggle current accordion" the handler only ever adds `active`; only the group reset removes it | an accordion outside any `.accordion-group` that is open, then clicked: it stays open (`Accordion.UngroupedOpenStaysOpen`) | the click toggles the accordion, closing an open one with or without a group | medium, not executed | `Accordion.ClickAsWritten` | `Accordion.Click` |

## Left out

- Mobile menu toggle and closing it on an outside click (main.js:4-19): class toggles with no decision logic.
- Smooth anchor scrolling (main.js:292-306) and the fixed call-to-action threshold (main.js:309-318): scrolling and styling only.
- Lazy image loading (main.js:263-289): driven by the browser's `IntersectionObserver`.
- Event registration, `DOMContentLoaded` and the `querySelector` lookups: the model takes the looked-up elements as data.
- The request itself (`fetch`, `JSON.stringify`, decoding the response, main.js:160-168): its result is the `Outcome` input. `Delivered` stands for a response whose body decodes as JSON; `Failed` stands for everything else.
- `FormData` and `Object.fromEntries` (main.js:149-150): the notifications carry the control list as captured before sending, not the name-to-value map built from it.
- The text of the alerts and error messages, `console.log` and `console.error`: messages are the reasons `Required`, `BadEmail` and `BadPhone`, and alerts are effects.
- The five-second auto-hide of the success element (main.js:200-202): it needs a timer.
- The `error` and `show` class changes of `validateField` (main.js:105-109, 136-142): the verdict is what `validateField` computes, and it decides the control's own `error` class.
- The error message element is the first `.form-error` under the control's parent (main.js:106). With no such element no message appears. Controls that share a parent share one element, so the last control validated decides what it shows.
- The blur handler (main.js:76-81) calls `validateField` on every `.form-input` and `.form-select`, required or not. It needs no member of its own beyond `Validation.ValidateField`.
- Unicode: the whitespace set lists the space separators of the current Unicode version; there is no normalisation.
- Submission.Submit: when the form fails validation, `validateForm` still flags every required control (main.js:70, 89-93, 105-109, 136-142). `Form` holds no per-control display, so that flagging is not part of `Submit`'s result; `Validation.ValidateForm` states it.
- Submission.Submit: each request is modelled as settling before the next event. Two requests of the same form pending at once are not interleaved. `Submission.PendingFormCanBeResent` shows that the handler (main.js:67-73) does not check the button. Only the browser's handling of a disabled submit button stands between a pending form and a second request.
- Accordion.ClickPreservesExclusivity: holds only for pages without nested groups, and so does `Accordion.ClickAsWrittenPreservesExclusivity`. `Accordion.NestedGroupsAllowTwo` shows why.

=== FILE: accordion.dfy ===
/**
  Accordion panels: clicking a header closes every accordion in the clicked
  one's group and then opens the clicked accordion if it was closed.
 */
module Accordion {
  import opened Optional

  type AccordionId = nat
  type GroupId = nat

  /**
    Where the accordions sit on the page. `nearest` maps an accordion to the
    closest enclosing `.accordion-group` (absent when there is none), and
    `members` maps a group to every `.accordion` inside it, nested ones included.
   */
  datatype Layout = Layout(nearest: map<AccordionId, GroupId>, members: map<GroupId, set<AccordionId>>)

  /** `accordion.closest('.accordion-group')`. */
  function GroupOf(l: Layout, a: AccordionId): Option<GroupId> {
    if a in l.nearest then Some(l.nearest[a]) else None
  }

  /** `accordionGroup.querySelectorAll('.accordion')`. */
  function Members(l: Layout, g: GroupId): set<AccordionId> {
    if g in l.members then l.members[g] else {}
  }

  /** The accordions a click on `a` closes before deciding about `a` itself. */
  function Closed(l: Layout, a: AccordionId): set<AccordionId> {
    match GroupOf(l, a)
    case Some(g) => Members(l, g)
    case None => {}
  }

  /** Every accordion lies inside its own nearest group. This holds on a page
      where no accordion is itself a group element: an element carrying both
      classes is its own nearest group but not one of its own members. */
  ghost predicate WellFormed(l: Layout) {
    forall a: AccordionId | a in l.nearest :: a in Members(l, l.nearest[a])
  }

  /**
    The header click handler exactly as written: close the group, then add
    `active` to the clicked accordion if it did not have it. Nothing removes
    `active` from an open accordion that has no group, so such an accordion
    cannot be closed.
   */
  function ClickAsWritten(l: Layout, active: set<AccordionId>, a: AccordionId): (r: set<AccordionId>)
    ensures a !in active ==> a in r
    ensures a in active ==> (a in r <==> a !in Closed(l, a))
    ensures forall b | b in Closed(l, a) && b != a :: b !in r
    ensures forall b | b !in Closed(l, a) && b != a :: b in r <==> b in active
  {
    var wasActive := a in active;
    var afterClose := active - Closed(l, a);
    if !wasActive then afterClose + {a} else afterClose
  }

  /** Clicking an open accordion that sits in no group leaves every accordion as it was. */
  lemma UngroupedOpenStaysOpen(l: Layout, active: set<AccordionId>, a: AccordionId)
    requires GroupOf(l, a).None? && a in active
    ensures ClickAsWritten(l, active, a) == active
  {
  }

  /**
    The click as the handler's own comment describes it: close the group, then
    toggle the clicked accordion. `active` is the set of accordions carrying
    class `active`; the result is that set after the click.
   */
  function Click(l: Layout, active: set<AccordionId>, a: AccordionId): (r: set<AccordionId>)
    ensures a in r <==> a !in active
    ensures forall b | b in Closed(l, a) && b != a :: b !in r
    ensures forall b | b !in Closed(l, a) && b != a :: b in r <==> b in active
  {
    var afterClose := active - Closed(l, a);
    if a in active then afterClose - {a} else afterClose + {a}
  }

  /** The correction changes nothing for an accordion inside a group: there the
      group reset already closes the clicked accordion. */
  lemma ClickMatchesSourceInGroups(l: Layout, active: set<AccordionId>, a: AccordionId)
    requires WellFormed(l) && GroupOf(l, a).Some?
    ensures Click(l, active, a) == ClickAsWritten(l, active, a)
  {
    assert a in Closed(l, a);
  }

  /** Outside any group a click toggles the clicked accordion and nothing else. */
  lemma UngroupedToggles(l: Layout, active: set<AccordionId>, a: AccordionId)
    requires GroupOf(l, a).None?
    ensures Click(l, active, a) == if a in active then active - {a} else active + {a}
  {
  }

  /** At most one accordion of the group is active. */
  predicate AtMostOneActive(l: Layout, g: GroupId, active: set<AccordionId>) {
    forall b, c | b in Members(l, g) && c in Members(l, g) && b in active && c in active :: b == c
  }

  /** After a click inside a group, at most one accordion of that group is active. */
  lemma ClickLeavesOneActive(l: Layout, active: set<AccordionId>, a: AccordionId)
    requires GroupOf(l, a).Some?
    ensures AtMostOneActive(l, GroupOf(l, a).value, Click(l, active, a))
  {
  }

  /** Groups are not nested: an accordion belongs to a group exactly when that
      group is its nearest one. */
  ghost predicate Flat(l: Layout) {
    forall g: GroupId, b: AccordionId :: b in Members(l, g) <==> GroupOf(l, b) == Some(g)
  }

  /** On a page without nested groups, every group keeps at most one active
      accordion across any click. */
  lemma ClickPreservesExclusivity(l: Layout, active: set<AccordionId>, a: AccordionId)
    requires Flat(l)
    requires forall g: GroupId :: AtMostOneActive(l, g, active)
    ensures forall g: GroupId :: AtMostOneActive(l, g, Click(l, active, a))
  {
    var r := Click(l, active, a);
    forall g: GroupId
      ensures AtMostOneActive(l, g, r)
    {
      if GroupOf(l, a) != Some(g) {
        forall b | b in Members(l, g)
          ensures b in r <==> b in active
        {
          assert GroupOf(l, b) == Some(g);
          assert b != a;
          if GroupOf(l, a).Some? {
            assert b !in Members(l, GroupOf(l, a).value);
          }
        }
        assert AtMostOneActive(l, g, active);
      }
    }
  }

  /** After a click inside a group, the handler as written leaves at most one
      accordion of that group active. */
  lemma ClickAsWrittenLeavesOneActive(l: Layout, active: set<AccordionId>, a: AccordionId)
    requires GroupOf(l, a).Some?
    ensures AtMostOneActive(l, GroupOf(l, a).value, ClickAsWritten(l, active, a))
  {
  }

  /** The handler as written keeps every group exclusive on a page without
      nested groups: an open ungrouped accordion that stays open belongs to no group. */
  lemma ClickAsWrittenPreservesExclusivity(l: Layout, active: set<AccordionId>, a: AccordionId)
    requires Flat(l)
    requires forall g: GroupId :: AtMostOneActive(l, g, active)
    ensures forall g: GroupId :: AtMostOneActive(l, g, ClickAsWritten(l, active, a))
  {
    var r := ClickAsWritten(l, active, a);
    forall g: GroupId
      ensures AtMostOneActive(l, g, r)
    {
      if GroupOf(l, a) == Some(g) {
        ClickAsWrittenLeavesOneActive(l, active, a);
      } else {
        forall b | b in Members(l, g)
          ensures b in r <==> b in active
        {
          assert GroupOf(l, b) == Some(g);
          assert b != a;
          if GroupOf(l, a).Some? {
            assert b !in Members(l, GroupOf(l, a).value);
          }
        }
        assert AtMostOneActive(l, g, active);
      }
    }
  }

  /** Nested groups break exclusivity, for the handler as written and for the
      corrected click alike: with group 1 inside group 0, opening an accordion
      of group 1 leaves group 0 with two active accordions. */
  lemma NestedGroupsAllowTwo()
    ensures var l := Layout(map[0 := 0, 1 := 1], map[0 := {0, 1}, 1 := {1}]);
      && AtMostOneActive(l, 0, {0})
      && !AtMostOneActive(l, 0, Click(l, {0}, 1))
      && !AtMostOneActive(l, 0, ClickAsWritten(l, {0}, 1))
  {
    var l := Layout(map[0 := 0, 1 := 1], map[0 := {0, 1}, 1 := {1}]);
    assert Click(l, {0}, 1) == {0, 1};
    assert ClickAsWritten(l, {0}, 1) == {0, 1};
  }
}

=== FILE: optional.dfy ===
/** An absent-or-present value: a DOM lookup that may return `null`, an attribute that may be missing. */
module Optional {

  datatype Option<+T> = None | Some(value: T)
}

=== FILE: patterns.dfy ===
/**
  The two shape checks of the form validator: the email pattern
  `^[^\s@]+@[^\s@]+\.[^\s@]+$` and the phone pattern `^[\d\s\-\+\(\)]+$`
  together with its ten-digit minimum.
 */
module Patterns {
  import opened Text

  /** Number of occurrences of `c` in `s`. */
  function Count(s: string, c: char): nat {
    if s == [] then 0 else (if s[0] == c then 1 else 0) + Count(s[1..], c)
  }

  /** Position of the first `c` in `s`, or `|s|` when there is none. */
  function IndexOf(s: string, c: char): (r: nat)
    ensures r <= |s|
    ensures r < |s| ==> s[r] == c
    ensures forall j | 0 <= j < r :: s[j] != c
    ensures r == |s| ==> c !in s
  {
    if s == [] then 0
    else if s[0] == c then 0
    else 1 + IndexOf(s[1..], c)
  }

  lemma {:induction false} CountZero(s: string, c: char)
    ensures Count(s, c) == 0 <==> c !in s
  {
    if s != [] {
      CountZero(s[1..], c);
      assert s == [s[0]] + s[1..];
    }
  }

  /** With `c` at position `p`, `c` occurs exactly once exactly when it occurs nowhere else. */
  lemma {:induction false} CountOne(s: string, c: char, p: nat)
    requires p < |s| && s[p] == c
    ensures Count(s, c) == 1 <==> forall j | 0 <= j < |s| && j != p :: s[j] != c
  {
    if p == 0 {
      CountZero(s[1..], c);
      if Count(s, c) != 1 {
        var j :| 0 <= j < |s[1..]| && s[1..][j] == c;
        assert s[j + 1] == c;
      }
    } else {
      CountOne(s[1..], c, p - 1);
      if s[0] == c {
        CountZero(s[1..], c);
        assert s[1..][p - 1] == c;
      } else {
        if forall j | 0 <= j < |s[1..]| && j != p - 1 :: s[1..][j] != c {
          forall j | 0 <= j < |s| && j != p
            ensures s[j] != c
          {
            if j > 0 {
              assert s[1..][j - 1] == s[j];
            }
          }
        }
      }
    }
  }

  // ---------------------------------------------------------------- email

  /** `[^\s@]`: a character allowed in every part of an address. */
  predicate AddressChar(c: char) {
    !IsSpace(c) && c != '@'
  }

  /** `[^\s@]+`: a non-empty run of address characters. */
  predicate AddressRun(s: string) {
    |s| > 0 && forall i | 0 <= i < |s| :: AddressChar(s[i])
  }

  /** `s` splits as a run, `@` at `at`, a run, `.` at `dot`, a run. */
  ghost predicate EmailSplit(s: string, at: int, dot: int) {
    && 0 <= at < dot < |s|
    && AddressRun(s[..at]) && s[at] == '@'
    && AddressRun(s[at + 1..dot]) && s[dot] == '.'
    && AddressRun(s[dot + 1..])
  }

  /** The strings the email regular expression accepts, read off the expression
      itself. A run may contain dots, so any dot of the domain with a character
      on each side can play the part of the escaped dot. */
  ghost predicate EmailLanguage(s: string) {
    exists at, dot :: EmailSplit(s, at, dot)
  }

  /** The check as a reader would describe it: no whitespace, exactly one `@`,
      something before it, and after it a `.` with a character on each side. */
  predicate EmailShape(s: string) {
    && (forall i | 0 <= i < |s| :: !IsSpace(s[i]))
    && Count(s, '@') == 1
    && var at := IndexOf(s, '@');
       && 0 < at
       && exists k | at + 1 < k < |s| - 1 :: s[k] == '.'
  }

  /** The structural reading agrees with the regular expression on every string. */
  lemma EmailShapeMatchesPattern(s: string)
    ensures EmailShape(s) <==> EmailLanguage(s)
  {
    if EmailShape(s) {
      var at := IndexOf(s, '@');
      CountZero(s, '@');
      CountOne(s, '@', at);
      var dot :| at + 1 < dot < |s| - 1 && s[dot] == '.';
      assert AddressRun(s[..at]) by {
        forall i | 0 <= i < at ensures AddressChar(s[..at][i]) {
          assert s[..at][i] == s[i];
        }
      }
      var domain, tld := s[at + 1..dot], s[dot + 1..];
      assert AddressRun(domain) by {
        forall i | 0 <= i < |domain| ensures AddressChar(domain[i]) {
          assert domain[i] == s[at + 1 + i];
        }
      }
      assert AddressRun(tld) by {
        forall i | 0 <= i < |tld| ensures AddressChar(tld[i]) {
          assert tld[i] == s[dot + 1 + i];
        }
      }
      assert EmailSplit(s, at, dot);
    }
    if EmailLanguage(s) {
      var at, dot :| EmailSplit(s, at, dot);
      forall j | 0 <= j < |s| && j != at
        ensures AddressChar(s[j])
      {
        if j < at {
          assert s[..at][j] == s[j];
        } else if j < dot {
          assert s[at + 1..dot][j - at - 1] == s[j];
        } else if j > dot {
          assert s[dot + 1..][j - dot - 1] == s[j];
        }
      }
      CountOne(s, '@', at);
      assert IndexOf(s, '@') == at;
      assert s[dot + 1..][0] == s[dot + 1];
    }
  }

  // ---------------------------------------------------------------- phone

  /** The phone field needs at least this many digits. */
  const MinPhoneDigits: nat := 10

  /** `[\d\s\-\+\(\)]`: a character the phone pattern admits. */
  predicate PhoneChar(c: char) {
    IsDigit(c) || IsSpace(c) || c == '-' || c == '+' || c == '(' || c == ')'
  }

  /** `^[\d\s\-\+\(\)]+$`. */
  predicate PhonePattern(s: string) {
    |s| > 0 && forall i | 0 <= i < |s| :: PhoneChar(s[i])
  }

  /** The phone check passes: the pattern matches and the value keeps at least
      ten digits once everything else is stripped. */
  predicate PhoneOk(s: string) {
    PhonePattern(s) && |Digits(s)| >= MinPhoneDigits
  }

  lemma {:induction false} DigitsAppend(a: string, b: string)
    ensures Digits(a + b) == Digits(a) + Digits(b)
  {
    if a == [] {
      assert a + b == b;
    } else {
      assert (a + b)[0] == a[0];
      assert (a + b)[1..] == a[1..] + b;
      DigitsAppend(a[1..], b);
    }
  }

  lemma PhoneCharsSplice(a: string, x: char, b: string)
    requires PhoneChar(x)
    ensures PhonePattern(a + [x] + b) <==> (forall i | 0 <= i < |a + b| :: PhoneChar((a + b)[i]))
  {
    var s, t := a + [x] + b, a + b;
    if forall i | 0 <= i < |t| :: PhoneChar(t[i]) {
      forall i | 0 <= i < |s| ensures PhoneChar(s[i]) {
        if i < |a| {
          assert s[i] == t[i];
        } else if i > |a| {
          assert s[i] == t[i - 1];
        }
      }
    }
    if PhonePattern(s) {
      forall i | 0 <= i < |t| ensures PhoneChar(t[i]) {
        if i < |a| {
          assert s[i] == t[i];
        } else {
          assert s[i + 1] == t[i];
        }
      }
    }
  }

  /** Formatting does not matter: inserting a separator anywhere in a value
      never changes whether the phone check passes. */
  lemma PhoneIgnoresSeparators(a: string, x: char, b: string)
    requires PhoneChar(x) && !IsDigit(x)
    ensures PhoneOk(a + [x] + b) <==> PhoneOk(a + b)
  {
    DigitsAppend(a, [x] + b);
    DigitsAppend([x], b);
    DigitsAppend(a, b);
    assert a + [x] + b == a + ([x] + b);
    assert Digits([x]) == [];
    assert Digits(a + [x] + b) == Digits(a + b);
    PhoneCharsSplice(a, x, b);
  }

  /** A value that passes the phone check is at least ten characters long. */
  lemma PhoneOkIsLong(s: string)
    requires PhoneOk(s)
    ensures |s| >= MinPhoneDigits
  {
  }

  // ---------------------------------------------------------------- examples

  /** `a@b.co` is an address; `a@b` has no dot after the `@`; `a@@b.co` has two `@`. */
  lemma EmailExamples()
    ensures EmailLanguage("a@b.co")
    ensures !EmailLanguage("a@b")
    ensures !EmailLanguage("a@@b.co")
  {
    EmailShapeMatchesPattern("a@b.co");
    assert IndexOf("a@b.co", '@') == 1;
    assert "a@b.co"[3] == '.';
    EmailShapeMatchesPattern("a@b");
    EmailShapeMatchesPattern("a@@b.co");
    assert Count("a@@b.co", '@') == 2;
  }

  lemma {:induction false} DigitsKeepsDigits(s: string)
    requires forall i | 0 <= i < |s| :: IsDigit(s[i])
    ensures Digits(s) == s
  {
    if s != [] {
      DigitsKeepsDigits(s[1..]);
    }
  }

  /** Ten or more bare digits pass the phone check. */
  lemma BareDigitsPass(s: string)
    requires |s| >= MinPhoneDigits
    requires forall i | 0 <= i < |s| :: IsDigit(s[i])
    ensures PhoneOk(s)
  {
    DigitsKeepsDigits(s);
  }

  /** Six digits are too few; letters are not allowed. */
  lemma PhoneExamples()
    ensures !PhoneOk("555-12")
    ensures !PhoneOk("call me")
  {
    assert !PhoneChar("call me"[0]);
  }
}

=== FILE: schedule.dfy ===
/**
  The schedule filter: three facet selects (level, format, day) decide which
  rows of the schedule table stay visible.
 */
module Schedule {
  import opened Optional

  /** The selection that means "no filter on this facet". */
  const AllValues := "all"

  datatype Facet = Level | Format | Day

  /** The values of the three `[data-filter]` selects; `None` when the select
      is not on the page. */
  datatype Selections = Selections(level: Option<string>, format: Option<string>, day: Option<string>)

  /** A row's `data-level`, `data-format` and `data-day` attributes; `None`
      when the attribute is missing. */
  datatype Row = Row(level: Option<string>, format: Option<string>, day: Option<string>)

  function Selected(s: Selections, f: Facet): Option<string> {
    match f
    case Level => s.level
    case Format => s.format
    case Day => s.day
  }

  function Tag(row: Row, f: Facet): Option<string> {
    match f
    case Level => row.level
    case Format => row.format
    case Day => row.day
  }

  /** `select?.value || 'all'`: a missing select and an empty value both mean no filter. */
  function Effective(sel: Option<string>): string {
    if sel.None? || sel.value == "" then AllValues else sel.value
  }

  /** One facet lets a row through: it is unfiltered or the row carries the selected tag. */
  predicate Admits(s: Selections, f: Facet, row: Row) {
    Effective(Selected(s, f)) == AllValues || Tag(row, f) == Some(Effective(Selected(s, f)))
  }

  /**
    The body of `filterSchedule` for one row: a facet whose selection is not
    `all` and differs from the row's tag hides the row.
   */
  function IsShown(s: Selections, row: Row): (show: bool)
    ensures show <==> forall f: Facet :: Admits(s, f, row)
  {
    var level := Effective(s.level);
    var format := Effective(s.format);
    var day := Effective(s.day);
    assert Admits(s, Level, row) && Admits(s, Format, row) && Admits(s, Day, row) ==>
      forall f: Facet :: Admits(s, f, row);
    && (level == AllValues || row.level == Some(level))
    && (format == AllValues || row.format == Some(format))
    && (day == AllValues || row.day == Some(day))
  }

  /** The visibility `filterSchedule` gives each row of the table, in order. */
  function Filter(s: Selections, rows: seq<Row>): (shown: seq<bool>)
    ensures |shown| == |rows|
    ensures forall i | 0 <= i < |rows| :: shown[i] <==> forall f: Facet :: Admits(s, f, rows[i])
  {
    seq(|rows|, i requires 0 <= i < |rows| => IsShown(s, rows[i]))
  }

  /** With nothing selected (no selects, or every select empty) every row is shown. */
  lemma NoSelectionShowsAll(s: Selections, rows: seq<Row>)
    requires forall f: Facet :: Effective(Selected(s, f)) == AllValues
    ensures forall i | 0 <= i < |rows| :: Filter(s, rows)[i]
  {
  }

  /** On any facet, an absent select, an empty one and one set to `all` behave
      alike, whatever the other two selects hold. */
  lemma UnsetMeansAll(s: Selections, f: Facet, row: Row)
    ensures IsShown(Choose(s, f, None), row)
        == IsShown(Choose(s, f, Some("")), row)
        == IsShown(Choose(s, f, Some(AllValues)), row)
  {
    forall g: Facet
      ensures Admits(Choose(s, f, None), g, row) == Admits(Choose(s, f, Some("")), g, row)
      ensures Admits(Choose(s, f, None), g, row) == Admits(Choose(s, f, Some(AllValues)), g, row)
    {
    }
  }

  /** With a concrete value chosen on every facet, exactly the rows tagged with
      those three values are shown. */
  lemma FullSelectionMatchesExactly(level: string, format: string, day: string, row: Row)
    requires level != "" && level != AllValues
    requires format != "" && format != AllValues
    requires day != "" && day != AllValues
    ensures IsShown(Selections(Some(level), Some(format), Some(day)), row)
        <==> row == Row(Some(level), Some(format), Some(day))
  {
    var s := Selections(Some(level), Some(format), Some(day));
    if IsShown(s, row) {
      assert Admits(s, Level, row) && Admits(s, Format, row) && Admits(s, Day, row);
    }
  }

  /** Choosing a value on one more facet can only hide rows, never reveal one. */
  lemma NarrowingOnlyHides(s: Selections, f: Facet, v: string, row: Row)
    requires Effective(Selected(s, f)) == AllValues
    ensures IsShown(Choose(s, f, Some(v)), row) ==> IsShown(s, row)
  {
    if IsShown(Choose(s, f, Some(v)), row) {
      forall g: Facet ensures Admits(s, g, row) {
        assert Admits(Choose(s, f, Some(v)), g, row);
      }
    }
  }

  /** `s` with the select of facet `f` replaced by `sel`. */
  function Choose(s: Selections, f: Facet, sel: Option<string>): (r: Selections)
    ensures Selected(r, f) == sel
    ensures forall g: Facet :: g != f ==> Selected(r, g) == Selected(s, g)
  {
    match f
    case Level => s.(level := sel)
    case Format => s.(format := sel)
    case Day => s.(day := sel)
  }
}

=== FILE: submission.dfy ===
/**
  The submit flow of a form: the validation guard, the loading state of the
  submit button while the request is pending, and the two ways the request
  settles. The request itself is not modelled; its outcome is an input.
 */
module Submission {
  import opened Optional
  import opened Text
  import opened Validation

  /** The button text while the request is pending. */
  const SendingLabel := "Отправка..."

  /** The button text restored when the button has no `data-original-text`. */
  const DefaultLabel := "Отправить"

  /** The submit button: `disabled`, class `loading`, its text, and its
      `data-original-text` attribute. */
  datatype Button = Button(disabled: bool, loading: bool, text: string, originalText: Option<string>)

  /** How the request settles: the response body decoded as JSON, or the
      request or the decoding failed. */
  datatype Outcome = Delivered | Failed

  datatype Channel = Telegram | EmailChannel

  /** What the user or an outside party observes besides the form itself. */
  datatype Effect =
    | SuccessShown       // the `.form-success` element is shown
    | SuccessAlert       // the form has no `.form-success` element: a success alert instead
    | ErrorAlert         // the request failed
    | Notified(channel: Channel, data: seq<Field>)

  /** A form: its controls in document order, its submit button if it has one,
      whether it has a `.form-success` element, and the effects so far. */
  datatype Form = Form(fields: seq<Field>, button: Option<Button>, hasSuccessElement: bool, effects: seq<Effect>)

  /** Lines 153-158: the button while the request is pending. */
  function Loading(b: Button): Button {
    b.(disabled := true, loading := true, text := SendingLabel)
  }

  /** `getAttribute('data-original-text') || 'Отправить'`. */
  function RestoredLabel(b: Button): string {
    if b.originalText.Some? && b.originalText.value != "" then b.originalText.value else DefaultLabel
  }

  /** The `finally` block: the button enabled again with its restored label. */
  function Restored(b: Button): Button {
    b.(disabled := false, loading := false, text := RestoredLabel(b))
  }

  function MapButton(b: Option<Button>, f: Button -> Button): Option<Button> {
    match b
    case Some(v) => Some(f(v))
    case None => None
  }

  /** `form.reset()`: every control gets its default value back and keeps
      everything else. */
  function Reset(fields: seq<Field>): (r: seq<Field>)
    ensures |r| == |fields|
    ensures forall i | 0 <= i < |fields| ::
      r[i].value == fields[i].defaultValue && r[i].(value := fields[i].value) == fields[i]
  {
    seq(|fields|, i requires 0 <= i < |fields| => fields[i].(value := fields[i].defaultValue))
  }

  /** The form while its request is pending: its button, if any, is disabled,
      loading and reads "Отправка...", and nothing else changes. */
  function Pending(f: Form): (r: Form)
    ensures r.button.Some? <==> f.button.Some?
    ensures r.button.Some? ==>
      r.button.value == f.button.value.(disabled := true, loading := true, text := SendingLabel)
    ensures r.(button := f.button) == f
  {
    f.(button := MapButton(f.button, Loading))
  }

  /** `showFormSuccess`, without the five-second auto-hide. */
  function SuccessFeedback(f: Form): Effect {
    if f.hasSuccessElement then SuccessShown else SuccessAlert
  }

  /** The request settles: `then` on delivery, `catch` on failure, and `finally`
      in both cases. `data` is the form's content captured before sending. */
  function Settle(f: Form, data: seq<Field>, o: Outcome): Form {
    var settled := match o
      case Delivered =>
        f.(fields := Reset(f.fields),
           effects := f.effects + [SuccessFeedback(f), Notified(Telegram, data), Notified(EmailChannel, data)])
      case Failed =>
        f.(effects := f.effects + [ErrorAlert]);
    settled.(button := MapButton(settled.button, Restored))
  }

  /**
    The submit handler: when `validateForm` accepts the form, send it and let
    the request settle with outcome `o`. Otherwise nothing is sent, no success
    or failure feedback appears and nobody is notified.
   */
  function Submit(f: Form, o: Outcome): (r: Form)
    ensures !FormValid(f.fields) ==> r == f
    ensures FormValid(f.fields) ==>
      && r.hasSuccessElement == f.hasSuccessElement
      && (r.button.Some? <==> f.button.Some?)
      && (r.button.Some? ==>
            r.button.value == f.button.value.(disabled := false, loading := false, text := RestoredLabel(f.button.value)))
    ensures FormValid(f.fields) && o == Delivered ==>
      && r.fields == Reset(f.fields)
      && r.effects == f.effects + [SuccessFeedback(f), Notified(Telegram, f.fields), Notified(EmailChannel, f.fields)]
    ensures FormValid(f.fields) && o == Failed ==>
      r.fields == f.fields && r.effects == f.effects + [ErrorAlert]
  {
    if FormValid(f.fields) then Settle(Pending(f), f.fields, o) else f
  }

  /** The button ends the same whichever way the request settles. */
  lemma ButtonSettlesAlike(f: Form)
    ensures Submit(f, Delivered).button == Submit(f, Failed).button
  {
  }

  /** A failed request leaves the entered values alone and notifies nobody. */
  lemma FailureNotifiesNobody(f: Form)
    requires FormValid(f.fields)
    ensures Submit(f, Failed).fields == f.fields
    ensures forall e | e in Submit(f, Failed).effects[|f.effects|..] :: !e.Notified?
  {
    assert Submit(f, Failed).effects[|f.effects|..] == [ErrorAlert];
  }

  /** Both notifications carry the values as entered, not the reset ones. */
  lemma NotificationsCarryEnteredValues(f: Form)
    requires FormValid(f.fields)
    ensures var added := Submit(f, Delivered).effects[|f.effects|..];
      forall e | e in added && e.Notified? :: e.data == f.fields
  {
    var r := Submit(f, Delivered);
    assert r.effects[|f.effects|..]
      == [SuccessFeedback(f), Notified(Telegram, f.fields), Notified(EmailChannel, f.fields)];
  }

  /** The label the button had before sending is not what comes back: a button
      reading "Записаться" without `data-original-text` ends up reading "Отправить". */
  lemma OriginalLabelNotRestored(fields: seq<Field>)
    requires FormValid(fields)
    ensures var f := Form(fields, Some(Button(false, false, "Записаться", None)), true, []);
      Submit(f, Delivered).button.value.text == DefaultLabel
      && DefaultLabel != "Записаться"
  {
  }

  /** After a successful submission a required control whose default value is
      blank fails validation again, so the reset form cannot be resent as is. */
  lemma ResetFormNeedsNewInput(f: Form, i: nat)
    requires FormValid(f.fields)
    requires i < |f.fields| && Checked(f.fields[i]) && AllSpace(f.fields[i].defaultValue)
    ensures !FormValid(Submit(f, Delivered).fields)
  {
    var g := Submit(f, Delivered).fields[i];
    assert g == f.fields[i].(value := f.fields[i].defaultValue);
    BlankField(g);
  }

  /** Nothing stops a second submission while the first is pending: the
      disabled button is not checked by the handler. */
  lemma PendingFormCanBeResent(f: Form)
    requires FormValid(f.fields)
    ensures Submit(Pending(f), Failed).effects == f.effects + [ErrorAlert]
  {
  }
}

=== FILE: text.dfy ===
/**
  Character classes and string operations the page script relies on:
  `String.prototype.trim`, the regular-expression classes `\s` and `\d`,
  and `value.replace(/\D/g, '')`.
 */
module Text {

  /** The characters `trim()` removes and `\s` matches: ECMAScript's WhiteSpace
      (tab, vertical tab, form feed, space, no-break space, byte order mark and
      the space separators) together with its LineTerminators. */
  predicate IsSpace(c: char) {
    || c == '\t' || c == '\n' || c == '\U{000B}' || c == '\U{000C}' || c == '\r'
    || c == ' ' || c == '\U{00A0}' || c == '\U{1680}'
    || ('\U{2000}' <= c <= '\U{200A}')
    || c == '\U{2028}' || c == '\U{2029}' || c == '\U{202F}' || c == '\U{205F}'
    || c == '\U{3000}' || c == '\U{FEFF}'
  }

  /** `\d` without the `u` flag: the ASCII digits only. */
  predicate IsDigit(c: char) {
    '0' <= c <= '9'
  }

  predicate AllSpace(s: string) {
    forall i | 0 <= i < |s| :: IsSpace(s[i])
  }

  /** A string that `trim()` leaves as it is: empty, or neither end is whitespace. */
  predicate Trimmed(s: string) {
    s == [] || (!IsSpace(s[0]) && !IsSpace(s[|s| - 1]))
  }

  /** Drops the leading whitespace. */
  function TrimStart(s: string): (r: string)
    ensures |r| <= |s| && r == s[|s| - |r|..]
    ensures AllSpace(s[..|s| - |r|])
    ensures r == [] || !IsSpace(r[0])
  {
    if s != [] && IsSpace(s[0]) then
      var r := TrimStart(s[1..]);
      assert s[..|s| - |r|] == [s[0]] + s[1..][..|s| - 1 - |r|];
      r
    else s
  }

  /** Drops the trailing whitespace. */
  function TrimEnd(s: string): (r: string)
    ensures |r| <= |s| && r == s[..|r|]
    ensures AllSpace(s[|r|..])
    ensures r == [] || !IsSpace(r[|r| - 1])
  {
    if s != [] && IsSpace(s[|s| - 1]) then
      var r := TrimEnd(s[..|s| - 1]);
      assert s[|r|..] == s[..|s| - 1][|r|..] + [s[|s| - 1]];
      r
    else s
  }

  /** `String.prototype.trim`: the value with whitespace removed from both ends. */
  function Trim(s: string): (r: string)
    ensures |r| <= |s| && Trimmed(r)
    ensures r == [] <==> AllSpace(s)
  {
    var t := TrimStart(s);
    var r := TrimEnd(t);
    TrimShape(s, t, r);
    r
  }

  /** `r` is the slice of `s` starting at `lo`, with only whitespace around it. */
  ghost predicate InfixAt(s: string, r: string, lo: int) {
    0 <= lo <= |s| - |r| && r == s[lo..lo + |r|] && AllSpace(s[..lo]) && AllSpace(s[lo + |r|..])
  }

  /** What `trim()` returns is a slice of its input, and only whitespace lies
      outside that slice. */
  lemma TrimIsInfix(s: string)
    ensures exists lo :: InfixAt(s, Trim(s), lo)
  {
    var t := TrimStart(s);
    var r := TrimEnd(t);
    TrimShape(s, t, r);
    assert Trim(s) == r;
    assert InfixAt(s, r, |s| - |t|);
  }

  /** The slicing facts behind `Trim`, stated over plain strings: `t` is `s`
      without a whitespace prefix and `r` is `t` without a whitespace suffix. */
  lemma TrimShape(s: string, t: string, r: string)
    requires |t| <= |s| && t == s[|s| - |t|..] && AllSpace(s[..|s| - |t|])
    requires |r| <= |t| && r == t[..|r|] && AllSpace(t[|r|..])
    requires r == [] || !IsSpace(r[0])
    ensures var lo := |s| - |t|;
      && lo + |r| <= |s| && r == s[lo..lo + |r|]
      && AllSpace(s[..lo]) && AllSpace(s[lo + |r|..])
      && (r == [] <==> AllSpace(s))
  {
    var lo := |s| - |t|;
    assert s[lo + |r|..] == t[|r|..];
    if r == [] {
      forall i | 0 <= i < |s|
        ensures IsSpace(s[i])
      {
        if i < lo {
          assert s[..lo][i] == s[i];
        } else {
          assert t[|r|..][i - lo] == s[i];
        }
      }
    } else {
      assert s[lo] == r[0];
    }
  }

  lemma {:induction false} TrimStartPadded(a: string, t: string)
    requires AllSpace(a)
    requires t == [] || !IsSpace(t[0])
    ensures TrimStart(a + t) == t
    decreases |a|
  {
    if a == [] {
      assert a + t == t;
    } else {
      assert (a + t)[1..] == a[1..] + t;
      TrimStartPadded(a[1..], t);
    }
  }

  lemma {:induction false} TrimEndPadded(t: string, b: string)
    requires AllSpace(b)
    requires t == [] || !IsSpace(t[|t| - 1])
    ensures TrimEnd(t + b) == t
    decreases |b|
  {
    if b == [] {
      assert t + b == t;
    } else {
      assert (t + b)[..|t + b| - 1] == t + b[..|b| - 1];
      TrimEndPadded(t, b[..|b| - 1]);
    }
  }

  /** Whatever whitespace surrounds a value with non-space ends, `trim()` returns
      exactly that value: the characterisation `Trim` is measured against. */
  lemma TrimPadded(a: string, t: string, b: string)
    requires AllSpace(a) && AllSpace(b) && t != []
    requires Trimmed(t)
    ensures Trim(a + t + b) == t
  {
    assert a + t + b == a + (t + b);
    TrimStartPadded(a, t + b);
    TrimEndPadded(t, b);
  }

  /** Whitespace followed by whitespace is whitespace. */
  lemma AllSpaceCat(x: string, y: string)
    requires AllSpace(x) && AllSpace(y)
    ensures AllSpace(x + y)
  {
    forall i | 0 <= i < |x + y|
      ensures IsSpace((x + y)[i])
    {
      if i < |x| {
        assert (x + y)[i] == x[i];
      } else {
        assert (x + y)[i] == y[i - |x|];
      }
    }
  }

  /** A value that is the non-blank slice `t` of `v`, with whitespace around
      it, still trims to `t` once more whitespace is put around `v`. */
  lemma Reassemble(a: string, v: string, b: string, t: string, lo: int)
    requires AllSpace(a) && AllSpace(b) && t != [] && Trimmed(t)
    requires InfixAt(v, t, lo)
    ensures Trim(a + v + b) == t
  {
    var pre := v[..lo];
    var post := v[lo + |t|..];
    assert v == pre + t + post;
    assert a + v + b == (a + pre) + t + (post + b);
    AllSpaceCat(a, pre);
    AllSpaceCat(post, b);
    TrimPadded(a + pre, t, post + b);
  }

  /** Whitespace put around any value never changes what `trim()` returns. */
  lemma TrimAround(a: string, v: string, b: string)
    requires AllSpace(a) && AllSpace(b)
    ensures Trim(a + v + b) == Trim(v)
  {
    if AllSpace(v) {
      AllSpaceCat(a, v);
      AllSpaceCat(a + v, b);
    } else {
      TrimIsInfix(v);
      var lo :| InfixAt(v, Trim(v), lo);
      Reassemble(a, v, b, Trim(v), lo);
    }
  }

  /** A value `trim()` would leave unchanged is left unchanged. */
  lemma TrimTrimmed(t: string)
    requires Trimmed(t)
    ensures Trim(t) == t
  {
    TrimStartPadded([], t);
    assert [] + t == t;
    TrimEndPadded(t, []);
    assert t + [] == t;
  }

  /** Trimming twice is trimming once. */
  lemma TrimIdempotent(s: string)
    ensures Trim(Trim(s)) == Trim(s)
  {
    TrimTrimmed(Trim(s));
  }

  /** `value.replace(/\D/g, '')`: the digits of the value, in order. */
  function Digits(s: string): (r: string)
    ensures |r| <= |s|
    ensures forall i | 0 <= i < |r| :: IsDigit(r[i])
    ensures forall c :: multiset(r)[c] == if IsDigit(c) then multiset(s)[c] else 0
  {
    if s == [] then []
    else
      var rest := Digits(s[1..]);
      assert s == [s[0]] + s[1..];
      if IsDigit(s[0]) then [s[0]] + rest else rest
  }
}

=== FILE: validation.dfy ===
/**
  Field and form validation: `validateField` and `validateForm` of main.js.
  The visual side effects (the `error` class, the error element's text) are
  summarised by the verdict each call returns.
 */
module Validation {
  import opened Text
  import opened Patterns
  import opened Optional

  /** One form control as validation and reset see it. `hasFormClass` is true
      when the element carries class `form-input` or `form-select`, the classes
      `validateForm` selects on; `inputType` is the element's `type` property. */
  datatype Field = Field(
    name: string,
    id: string,
    inputType: string,
    required: bool,
    hasFormClass: bool,
    value: string,
    defaultValue: string)

  /** The three error messages, by the check that sets them. */
  datatype Reason = Required | BadEmail | BadPhone

  /** What the field shows after validation: nothing, or one error message. */
  datatype Verdict = Valid | Invalid(reason: Reason)

  /** `field.name || field.id`. */
  function FieldName(f: Field): string {
    if f.name != "" then f.name else f.id
  }

  /** The checks `validateField` runs, each as it fails, stated over the raw value. */
  ghost predicate RequiredFails(f: Field) {
    f.required && AllSpace(f.value)
  }

  ghost predicate EmailFails(f: Field) {
    f.inputType == "email" && !AllSpace(f.value) && !EmailLanguage(Trim(f.value))
  }

  ghost predicate PhoneFails(f: Field) {
    FieldName(f) == "phone" && !AllSpace(f.value) && !PhoneOk(Trim(f.value))
  }

  /**
    `validateField`: trims the value, then runs the required, email and phone
    checks in that order. A failing check overwrites the message of an earlier
    one, so the verdict carries the reason of the LAST failing check.
   */
  function ValidateField(f: Field): (r: Verdict)
    ensures r.Valid? <==> !RequiredFails(f) && !EmailFails(f) && !PhoneFails(f)
    ensures r == Invalid(Required) <==> RequiredFails(f)
    ensures r == Invalid(BadEmail) <==> EmailFails(f) && !PhoneFails(f)
    ensures r == Invalid(BadPhone) <==> PhoneFails(f)
  {
    var value := Trim(f.value);
    EmailShapeMatchesPattern(value);
    var afterRequired := if f.required && value == [] then Invalid(Required) else Valid;
    var afterEmail :=
      if f.inputType == "email" && value != [] && !EmailShape(value) then Invalid(BadEmail)
      else afterRequired;
    if FieldName(f) == "phone" && value != [] && !PhoneOk(value) then Invalid(BadPhone)
    else afterEmail
  }

  /** A blank or whitespace-only value: only the required check can fail, since
      the email and phone checks both need a non-empty trimmed value. */
  lemma BlankField(f: Field)
    requires AllSpace(f.value)
    ensures ValidateField(f) == if f.required then Invalid(Required) else Valid
  {
  }

  /** Two controls that differ only in whitespace around their values get the
      same verdict: validation only ever looks at the trimmed value. */
  lemma SameTrimSameVerdict(f: Field, g: Field)
    requires f.name == g.name && f.id == g.id && f.inputType == g.inputType
    requires f.required == g.required
    requires Trim(f.value) == Trim(g.value)
    ensures ValidateField(f) == ValidateField(g)
  {
    assert RequiredFails(f) == RequiredFails(g);
    assert EmailFails(f) == EmailFails(g);
    assert PhoneFails(f) == PhoneFails(g);
  }

  /** Hence typing spaces around an entry never changes its verdict. */
  lemma PaddingIgnored(f: Field, a: string, b: string)
    requires AllSpace(a) && AllSpace(b)
    ensures ValidateField(f.(value := a + f.value + b)) == ValidateField(f)
  {
    TrimAround(a, f.value, b);
    SameTrimSameVerdict(f.(value := a + f.value + b), f);
  }

  /** Last failure wins: an email-typed control named `phone` holding `x` fails
      both shape checks and reports the phone message. */
  lemma LastFailureWins(f: Field)
    requires f.inputType == "email" && FieldName(f) == "phone" && f.value == "x"
    ensures EmailFails(f) && PhoneFails(f)
    ensures ValidateField(f) == Invalid(BadPhone)
  {
    assert Trim(f.value) == "x" && !AllSpace(f.value) by {
      assert !IsSpace("x"[0]);
      TrimTrimmed("x");
    }
    assert EmailFails(f) by {
      assert !EmailLanguage("x");
    }
    assert PhoneFails(f) by {
      assert |Digits("x")| <= 1;
    }
  }

  /** The controls `validateForm` selects: `.form-input[required], .form-select[required]`. */
  predicate Checked(f: Field) {
    f.hasFormClass && f.required
  }

  /** What `validateForm` promises: every selected control passes `validateField`. */
  predicate FormValid(form: seq<Field>) {
    forall i | 0 <= i < |form| :: Checked(form[i]) ==> ValidateField(form[i]).Valid?
  }

  /**
    The `forEach` of `validateForm`, independent of what a field is: visits
    every element, runs `check` on each selected one, and remembers whether
    all of those verdicts were good instead of stopping at the first bad one.
   */
  method CheckEach<T, V>(xs: seq<T>, selected: T -> bool, check: T -> V, good: V -> bool)
    returns (ok: bool, shown: seq<Option<V>>)
    ensures |shown| == |xs|
    ensures forall i | 0 <= i < |xs| :: shown[i] == if selected(xs[i]) then Some(check(xs[i])) else None
    ensures ok <==> forall i | 0 <= i < |xs| :: selected(xs[i]) ==> good(check(xs[i]))
  {
    ok := true;
    shown := [];
    var i := 0;
    while i < |xs|
      invariant 0 <= i <= |xs|
      invariant |shown| == i
      invariant forall j | 0 <= j < i :: shown[j] == if selected(xs[j]) then Some(check(xs[j])) else None
      invariant ok <==> forall j | 0 <= j < i :: selected(xs[j]) ==> good(check(xs[j]))
    {
      if selected(xs[i]) {
        var v := check(xs[i]);
        if !good(v) {
          ok := false;
        }
        shown := shown + [Some(v)];
      } else {
        shown := shown + [None];
      }
      i := i + 1;
    }
  }

  /**
    `validateForm`: validates every selected control, in document order, and
    keeps going after a failure so that every invalid control is flagged.
    `shown[i]` is the verdict `validateField` computes for control `i`, which
    decides that control's `error` class, or `None` when the form validator
    does not visit it.
   */
  method ValidateForm(form: seq<Field>) returns (ok: bool, shown: seq<Option<Verdict>>)
    ensures |shown| == |form|
    ensures forall i | 0 <= i < |form| ::
      shown[i] == if Checked(form[i]) then Some(ValidateField(form[i])) else None
    ensures ok <==> NoVisitedControlInvalid(shown)
  {
    ok, shown := CheckEach(form, Checked, ValidateField, (v: Verdict) => v.Valid?);
    FormValidIffNoVisitedControlInvalid(form, shown);
  }

  /** No control that `validateForm` visits is invalid. Controls it skips may
      still show an error that the blur handler put there. */
  predicate NoVisitedControlInvalid(shown: seq<Option<Verdict>>) {
    forall i | 0 <= i < |shown| && shown[i].Some? :: shown[i].value.Valid?
  }

  /** No control that `validateForm` visits is invalid exactly when every
      selected control passes `validateField`. */
  lemma FormValidIffNoVisitedControlInvalid(form: seq<Field>, shown: seq<Option<Verdict>>)
    requires |shown| == |form|
    requires forall i | 0 <= i < |form| ::
      shown[i] == if Checked(form[i]) then Some(ValidateField(form[i])) else None
    ensures FormValid(form) <==> NoVisitedControlInvalid(shown)
  {
    if FormValid(form) {
      forall i | 0 <= i < |shown| && shown[i].Some?
        ensures shown[i].value.Valid?
      {
        assert Checked(form[i]);
      }
    }
    if NoVisitedControlInvalid(shown) {
      forall i | 0 <= i < |form| && Checked(form[i])
        ensures ValidateField(form[i]).Valid?
      {
        assert shown[i].Some?;
      }
    }
  }

  /** Optional controls never block the form, whatever they hold: an optional
      email field with a malformed address still lets the form through. */
  lemma OptionalFieldsIgnored(form: seq<Field>, i: nat, v: string)
    requires i < |form| && !Checked(form[i])
    ensures FormValid(form[i := form[i].(value := v)]) <==> FormValid(form)
  {
    var form' := form[i := form[i].(value := v)];
    assert forall j | 0 <= j < |form| && j != i :: form'[j] == form[j];
  }
}
